=== FILE: README.md ===
# Matching pre-trained offsets and preprocessed offsets: a Dafny model

This project models `PreTrained2PreProcessed.py`. That file aligns two tokenizations of one text. The first is the linguistic tokenization from spaCy or stanza: words with character offsets, tags and dependency triples. The second is a pre-trained embedding backend's tokenization: BERT sub-word tokens with their own character offsets, or one vector per word for ELMo and GloVe. The file packs the result into one feature bundle.

The model has six modules:

- `Wrappers` (`wrappers.dfy`): `Option` and `Result`. `Result.Failure` stands for an exception that escapes the source.
- `Text` (`text.dfy`): the string operations the adapters use. These are `str.split` with one separator, `int()` on ASCII text (with `str(n)` as its inverse), ASCII `str.lower()` and the substring test `in`.
- `Features` (`features.dfy`): the `Clause_feature` record (`ClauseFeature`), its span and dependency triple, and the faults the pipeline can raise.
- `Annotation` (`annotation.dfy`): `tokenization_processing`. The spaCy path numbers tokens `1..N` and computes `end = start + len(text)`. The stanza path reads `start_char=S|end_char=E` by position. Both paths build the triple `(id, deprel, head)`. An unknown pipeline name yields no records.
- `Aligner` (`aligner.dfy`): the BERT alignment scan. It is a pure filter (`AlignToken`) with a loop version (`AlignTokenLoop`, `AlignAll`) proved equal to it. Sub-word index `j` is listed for a token exactly when pair `j` of the full offset mapping is neither the first nor the last pair and lies inside the token's span. Each list is strictly increasing.
- `Bundle` (`bundle.dfy`): `embedding2preprocessed`. It dispatches on the embedding name: `"bert"`, `"elmo"`, or any name containing `"glove"`. It builds the bundle of vectors, alignment lists and dependency triples. A name that matches no branch returns `None`.

External collaborators are inputs:

- The annotators' output is a sequence of spaCy tokens or stanza sentences.
- The BERT tokenizer's output is a flat sequence of `(start, end)` pairs plus the model's output rows.
- ELMo's `embed_sentence` is a function field.
- The GloVe pickle is a `map` from word to vector.

Vector entries are an abstract type `E` with a distinguished `zero`. The alignment lists and dependency triples depend only on the input: the same annotator output and offset mapping always give the same lists and triples. The vectors are whatever the backend returns; for ELMo that need not be a function of the text (see "## Left out").

In these places the code's behaviour differs from what one might expect:

- An unknown annotator or embedding name is not an error. `tokenization_processing` returns an empty list, and `embedding2preprocessed` returns `None`.
- The ELMo and GloVe alignment lists hold the record's id `tk_idx`, not its position.
- Stanza ids are the per-sentence ids stanza reports, so they are not `1..N` across sentences.
- On the spaCy path the triple's head is `tk.head.i`, the head's 0-based position in the document. The id is the token's 0-based position plus one (`tk_idx + 1`). A root token is its own head.

## Model

| member | source | states |
|---|---|---|
| Features.ClauseFeature | PreTrained2PreProcessed.py:7-15 | The `Clause_feature` record: id `tk_idx`, text `tk`, character span `offset`, `pos`, `ner`, dependency triple `dep` and sub-word alignment `bert_offset`. The empty-string placeholder for the alignment is the empty list. |
| Text.Split | PreTrained2PreProcessed.py:93 | `split` on one separator gives at least one piece. No piece contains the separator. More than one piece means the separator occurs in the input. |
| Text.JoinSplit | PreTrained2PreProcessed.py:93 | Joining the pieces of a split with the separator gives back the original string. |
| Text.SplitJoin | PreTrained2PreProcessed.py:93-95 | Splitting a join of separator-free pieces gives back exactly those pieces. |
| Text.SplitNoSeparator | PreTrained2PreProcessed.py:93 | A string without the separator splits to itself alone. |
| Text.SplitAfterPiece | PreTrained2PreProcessed.py:93 | A separator-free prefix followed by the separator becomes the first piece, and the rest splits independently. |
| Text.AllDigitsAt | PreTrained2PreProcessed.py:94-95 | The digit-string test used by `int()` holds exactly when every character is an ASCII digit. |
| Text.ParseInt | PreTrained2PreProcessed.py:94-95 | `int()` strips only the ASCII whitespace it skips (tab through carriage return, and space), not the separators 0x1C-0x1F. It accepts only text whose stripped form ends in a digit. An unsigned numeral reads as non-negative and a `-` numeral as non-positive. Anything else is `None`, standing for the `ValueError`. |
| Text.ParseIntSkipsSpace | PreTrained2PreProcessed.py:94-95 | `int(" 5\n")` reads 5: surrounding ASCII whitespace is skipped. |
| Text.ParseIntKeepsSeparator | PreTrained2PreProcessed.py:94-95 | `int("\x1c5")` is a `ValueError`, although `str.isspace` accepts 0x1C. |
| Text.ShowNat | PreTrained2PreProcessed.py:94-95 | The decimal spelling of a natural number is non-empty, all digits, and has that number as its value. |
| Text.ShowInt | PreTrained2PreProcessed.py:94-95 | `str(n)` is non-empty and contains neither the bar separator nor `=`. |
| Text.StripUnchanged | PreTrained2PreProcessed.py:94-95 | Text with no whitespace at either end is unchanged by the whitespace strip `int()` performs. |
| Text.ParseShow | PreTrained2PreProcessed.py:94-95 | `int(str(n)) == n` for every integer `n`, negative ones included. |
| Text.Lower | PreTrained2PreProcessed.py:167 | `lower()` keeps the length, leaves no ASCII upper-case letter, shifts each upper-case letter to its lower-case partner and keeps every other character. |
| Text.LowerIdempotent | PreTrained2PreProcessed.py:167 | Lower-casing an already lower-cased key changes nothing. |
| Text.IsInfix | PreTrained2PreProcessed.py:163 | `needle in hay` holds exactly when some window of `hay` of the needle's length equals the needle. |
| Annotation.SpacyRecords | PreTrained2PreProcessed.py:64-81 | There is one record per spaCy token, in order. Record `i` has id `i+1`, the token's text, a span starting at `idx` and ending `len(text)` later, the triple `(id, dep, head.i)`, and an empty alignment. |
| Annotation.SpacyIdsDistinct | PreTrained2PreProcessed.py:67-69 | No two spaCy records share an id, and ids increase in document order. |
| Annotation.ParseOffsets | PreTrained2PreProcessed.py:93-95 | Offsets can only be read from a `misc` string that contains the bar separator. |
| Annotation.ParseOffsetsFormatted | PreTrained2PreProcessed.py:93-95 | The fields `k1=S` and `k2=E` joined by a bar, optionally followed by more bar-separated fields, read as the span `(S, E)` whatever the key names are. |
| Annotation.TwoFields | PreTrained2PreProcessed.py:93 | When `f0` and `f1` are joined by a bar and followed by more fields, the first two bar-separated fields are `f0` and `f1`. |
| Annotation.KeyValue | PreTrained2PreProcessed.py:94-95 | `key=value` splits on `=` into exactly the key and the value. |
| Annotation.ParseOffsetsRejects | PreTrained2PreProcessed.py:93-95 | Every raising path is a fault. That covers a `misc` string without the bar separator and either of the first two fields without `=` (the `IndexError`). It also covers a value after `=` that `int()` rejects (the `ValueError`). |
| Annotation.Flatten | PreTrained2PreProcessed.py:86-87 | The words visited are exactly the words of the document's sentences. |
| Annotation.FlattenSingle | PreTrained2PreProcessed.py:86-87 | One sentence flattens to its own words, in order. |
| Annotation.FlattenAppend | PreTrained2PreProcessed.py:86-87 | Flattening distributes over concatenation, so words come sentence by sentence, each in its own order. |
| Annotation.ReadOffsets | PreTrained2PreProcessed.py:93-95 | One offsets reading per word, in word order. |
| Annotation.StanzaRecords | PreTrained2PreProcessed.py:86-104 | Building succeeds exactly when every word's offsets can be read. It then gives one record per word, in order, carrying the word's id, text, parsed span, `xpos`, `ner`, triple `(id, deprel, head)` and an empty alignment. Otherwise the fault names the first unreadable word's `misc`. |
| Annotation.StanzaOutcome | PreTrained2PreProcessed.py:86-104 | Over the flattened words, the stanza branch succeeds exactly when every word's `misc` gives offsets. Each record then carries those offsets, its own id as the triple's first entry, and an empty alignment. |
| Annotation.TokenizationProcessing | PreTrained2PreProcessed.py:61-105 | spaCy always succeeds with ids `1..N`. Stanza succeeds exactly when every word's offsets can be read, with spans as read. Any other pipeline name gives no records. Every record's triple starts with its own id. |
| Aligner.Inner | PreTrained2PreProcessed.py:122 | `m[1:-1]` has two fewer entries, or none when the mapping has fewer than three, and its entry `k` is `m[k+1]`. |
| Aligner.Contained | PreTrained2PreProcessed.py:127 | Sub-word span `b` matches linguistic span `p` when `b.start >= p.start && b.end <= p.end`. This is containment, not overlap. |
| Aligner.AlignPrefix | PreTrained2PreProcessed.py:121-131 | After the first `n` pairs the list is strictly increasing. It holds exactly the 1-based positions among them whose pair lies inside the token's span. |
| Aligner.AlignToken | PreTrained2PreProcessed.py:116-133 | `j` is in a token's list exactly when `1 <= j <= M-2` and pair `j` of the full mapping lies inside the token's span (containment, not overlap). The list is strictly increasing. |
| Aligner.AlignTokenLoop | PreTrained2PreProcessed.py:121-131 | The nested scan, which starts a list at the first match and appends after that, computes exactly the filter `AlignToken`. |
| Aligner.AlignRecords | PreTrained2PreProcessed.py:116-133 | There is one output record per input record, in order. Only the alignment field changes. It lists exactly the contained inner pairs, in strictly increasing order, so no index repeats. |
| Aligner.AlignAll | PreTrained2PreProcessed.py:116-133 | The outer loop over the records computes exactly `AlignRecords`. |
| Aligner.DisjointSpansShareNothing | PreTrained2PreProcessed.py:127 | Two non-overlapping linguistic spans never claim the same sub-word index when every inner sub-word span is non-empty. |
| Aligner.ObamaWonExample | PreTrained2PreProcessed.py:116-133 | "Obama won." with matching sub-word spans aligns to `[[1],[2],[3]]`. |
| Aligner.PartialOverlapExcluded | PreTrained2PreProcessed.py:127 | Against `[2,5)`, the sub-word spans `[2,3)` and `[3,5)` match and `[4,6)` does not. |
| Bundle.DepList | PreTrained2PreProcessed.py:144 | `preprocessed_dep` has one triple per record, in record order. |
| Bundle.BertBundle | PreTrained2PreProcessed.py:112-152 | The BERT bundle has one alignment list per record. Each list is strictly increasing and holds exactly the contained inner sub-word indices. The triples run parallel to the records. |
| Bundle.SelfAlignment | PreTrained2PreProcessed.py:160 | ELMo and GloVe align record `i` to the one-element list `[tk_idx]`. |
| Bundle.Texts | PreTrained2PreProcessed.py:156 | ELMo embeds the records' texts, in record order. |
| Bundle.ElmoBundle | PreTrained2PreProcessed.py:155-161 | The bundle takes layer 0 of what ELMo returns and fails exactly when ELMo returns no layer. Its alignment lists are `[tk_idx]` and its triples run parallel to the records. |
| Bundle.ZeroVector | PreTrained2PreProcessed.py:171 | The fallback vector has 300 entries, all zero. |
| Bundle.GloveVector | PreTrained2PreProcessed.py:166-172 | A token's vector is the table entry for its lower-cased text when present, and otherwise 300 zeros. A miss never fails. |
| Bundle.GloveIgnoresCase | PreTrained2PreProcessed.py:167-169 | Tokens that differ only in letter case get the same GloVe vector. |
| Bundle.GloveLooksUpLowerCase | PreTrained2PreProcessed.py:167-169 | Lower-casing a token before the lookup gives the same vector, because the lookup lower-cases anyway. A token whose lower-cased form is a key gets that key's vector. |
| Bundle.GloveBundle | PreTrained2PreProcessed.py:163-177 | One GloVe vector per record, in record order. Alignment lists are `[tk_idx]` and triples run parallel to the records. |
| Bundle.IsGloveName | PreTrained2PreProcessed.py:112-163 | The GloVe branch is taken when the name is not `"bert"` (:112), not `"elmo"` (:155), and contains `"glove"` (:163). |
| Bundle.GloveNamesSelectGlove | PreTrained2PreProcessed.py:163 | `"glove42b"` and `"glove840b"` take the GloVe branch. `"bert"`, `"elmo"` and the mixed-case `"GloVe"` do not, because the test is case-sensitive. |
| Bundle.Assemble | PreTrained2PreProcessed.py:112-177 | Any bundle has one alignment list and one triple per record. `"bert"` takes the BERT branch. `"elmo"` fails with `NoElmoLayers` exactly when `embed_sentence` returns no layer; otherwise its vectors are layer 0 of `embed_sentence` on the token texts, with self alignment. Any other name containing `"glove"` takes the GloVe branch. Every other name gives `None`, not an error. |
| Bundle.Embedding2Preprocessed | PreTrained2PreProcessed.py:108-110 | A fault while building the records escapes whatever the embedding name. Otherwise the result is the bundle for the records. An unknown pipeline gives a bundle with no alignment lists and no triples. |
| Bundle.SpacySelfAlignment | PreTrained2PreProcessed.py:67-81 | With spaCy and ELMo or GloVe, token `i` is aligned to `[i+1]` and its triple starts with `i+1`. |
| Bundle.SpacyBertAlignment | PreTrained2PreProcessed.py:67-81 | With spaCy and BERT, token `i`'s list holds exactly the inner sub-word pairs inside `[idx, idx + len(text))` of that token. Its triple starts with `i+1`. |

## Left out

- `sel_preprocessing` and `sel_pretrained` are not modelled. They load libraries, models and pickled tables from disk. Their only effect here is which handle arrives as `embedder` or `nlp`, and `Bundle.BackendFits` / `Annotation.DocFits` state that the handle matches the name.
- The spaCy, stanza, transformers and allennlp calls are not modelled. Their outputs are inputs: token attributes, stanza word dictionaries, the offset mapping with the model output rows, and ELMo's sentence embedder as a function.
- The BERT forward pass, `torch.squeeze` and `torch.tensor` are not modelled. The bundle's `emb` is the model output passed in, or the vectors as a sequence of rows.
- The `frozen` / `raw` output switch is not modelled. It only chooses which opaque tensors go into the dictionary. The alignment lists and triples are the same in both modes, and `Bundle.BertBundle` states them.
- The offset mapping is modelled as a flat sequence of pairs, as the loop body treats it. The tokenizer is called with `return_tensors='pt'`, so the object it returns has a leading batch axis of size one. On that object, `offset_mapping[1:-1]` slices the batch axis and leaves nothing to scan. Taken as written, every BERT alignment list would then be empty. This tensor shape is outside the model.
- `print` diagnostics are not modelled, and neither are the float contents of vectors.
- Text.ParseInt: Python's `int()` also strips non-ASCII whitespace and accepts `_` between digits and non-ASCII decimal digits. The model rejects those. Like `int()`, the model does not skip the ASCII separators 0x1C-0x1F. Recent CPython releases also raise `ValueError` for a numeral of more than 4300 digits (`sys.int_max_str_digits`). The model accepts numerals of any length, so `Text.ParseShow` holds beyond that limit.
- Text.Lower: only ASCII letters are lower-cased. Python's `str.lower()` also maps other Unicode letters.
- Annotation.StanzaRecords: a stanza token is represented by the dictionary of its first word (`to_dict()[0]`), with `id` and `head` as integers. Multi-word tokens and tuple ids are not modelled.
- The GloVe vectors' widths are taken as the table gives them. The requirement of `torch.tensor` that all rows have one width is not modelled.
- Bundle.ElmoBundle: allennlp's ELMo keeps LSTM state between calls to `embed_sentence`, so the layer-0 vectors of one text can differ from call to call. The model treats `embed_sentence` as a pure function of the texts; only the alignment lists and triples are promised to depend on the input alone.

=== FILE: aligner.dfy ===
/** The offset aligner: for each linguistic token, the indices of the
    sub-word tokens whose character span lies entirely inside the token's
    span. The tokenizer's offset mapping is one `(start, end)` pair per
    sub-word token, the first and last being the special tokens around the
    text. */
module Aligner {
  import opened Features

  /** The matching rule: sub-word span `b` starts no earlier and ends no later
      than linguistic span `p`. Containment, not overlap. */
  predicate Contained(b: Span, p: Span)
  {
    b.start >= p.start && b.end <= p.end
  }

  /** `m[1:-1]`: the mapping without its first and last entries, empty when
      there are fewer than three. */
  function Inner(m: seq<Span>): (r: seq<Span>)
    ensures |r| == if |m| <= 2 then 0 else |m| - 2
    ensures forall k :: 0 <= k < |r| ==> r[k] == m[k + 1]
  {
    if |m| <= 2 then [] else m[1..|m| - 1]
  }

  predicate StrictlyIncreasing(xs: seq<int>)
  {
    forall a, b :: 0 <= a < b < |xs| ==> xs[a] < xs[b]
  }

  /** The list the scan has built after visiting the first `n` pairs of
      `inner`: the 1-based positions of the pairs contained in `p`, in
      order. */
  function AlignPrefix(p: Span, inner: seq<Span>, n: nat): (r: seq<int>)
    requires n <= |inner|
    ensures StrictlyIncreasing(r)
    ensures forall j :: j in r ==> 1 <= j <= n && Contained(inner[j - 1], p)
    ensures forall k :: 0 <= k < n && Contained(inner[k], p) ==> k + 1 in r
    decreases n
  {
    if n == 0 then []
    else
      var prev := AlignPrefix(p, inner, n - 1);
      assert forall a :: 0 <= a < |prev| ==> prev[a] in prev;
      prev + (if Contained(inner[n - 1], p) then [n] else [])
  }

  /** The alignment list of one linguistic span `p` against the full offset
      mapping `m`: an index `j` is listed exactly when `m[j]` is a pair other
      than the first and last and lies inside `p`; the list is increasing. */
  function AlignToken(p: Span, m: seq<Span>): (r: seq<int>)
    ensures StrictlyIncreasing(r)
    ensures forall j :: j in r ==> 1 <= j <= |m| - 2 && Contained(m[j], p)
    ensures forall j :: 1 <= j <= |m| - 2 && Contained(m[j], p) ==> j in r
  {
    var inner := Inner(m);
    var r := AlignPrefix(p, inner, |inner|);
    assert forall j :: 1 <= j <= |m| - 2 ==> inner[j - 1] == m[j];
    r
  }

  /** The scan as the source writes it: a loop over the inner pairs that
      starts a new list at the first match and appends after that. */
  method AlignTokenLoop(p: Span, m: seq<Span>) returns (r: seq<int>)
    ensures r == AlignToken(p, m)
  {
    var inner := Inner(m);
    r := [];
    var b := 0;
    while b < |inner|
      invariant 0 <= b <= |inner|
      invariant r == AlignPrefix(p, inner, b)
    {
      var bo := inner[b];
      if bo.start >= p.start && bo.end <= p.end {
        if |r| == 0 {
          r := [b + 1];
        } else {
          r := r + [b + 1];
        }
      }
      b := b + 1;
    }
  }

  /** Every record with its alignment list filled in; nothing else about the
      records changes. */
  function AlignRecords(records: seq<ClauseFeature>, m: seq<Span>): (r: seq<ClauseFeature>)
    ensures |r| == |records|
    ensures forall i :: 0 <= i < |r| ==> r[i].(bertOffset := records[i].bertOffset) == records[i]
    ensures forall i, j :: 0 <= i < |r| && j in r[i].bertOffset ==>
      1 <= j <= |m| - 2 && Contained(m[j], records[i].offset)
    ensures forall i, j :: 0 <= i < |r| && 1 <= j <= |m| - 2 && Contained(m[j], records[i].offset) ==>
      j in r[i].bertOffset
    ensures forall i :: 0 <= i < |r| ==> StrictlyIncreasing(r[i].bertOffset)
  {
    seq(|records|, i requires 0 <= i < |records| =>
      records[i].(bertOffset := AlignToken(records[i].offset, m)))
  }

  /** The outer loop of the source: visits the records in order and sets each
      one's alignment list. */
  method AlignAll(records: seq<ClauseFeature>, m: seq<Span>) returns (r: seq<ClauseFeature>)
    ensures r == AlignRecords(records, m)
  {
    r := [];
    var i := 0;
    while i < |records|
      invariant 0 <= i <= |records|
      invariant r == AlignRecords(records[..i], m)
    {
      var list := AlignTokenLoop(records[i].offset, m);
      r := r + [records[i].(bertOffset := list)];
      i := i + 1;
    }
    assert records[..i] == records;
  }

  /** Two linguistic spans that do not overlap never claim the same sub-word
      token, provided every inner sub-word span is non-empty. */
  lemma DisjointSpansShareNothing(p: Span, q: Span, m: seq<Span>)
    requires p.end <= q.start
    requires forall j :: 1 <= j <= |m| - 2 ==> m[j].start < m[j].end
    ensures forall j :: j in AlignToken(p, m) ==> j !in AlignToken(q, m)
  {
  }

  /** The text "Obama won." is split by the annotator into the spans [0,5), [6,9), [9,10), and the sub-word
      tokenizer produces the same three spans between its two special tokens,
      so each linguistic token gets exactly its own sub-word index. */
  lemma ObamaWonExample()
    ensures var m := [Span(0, 0), Span(0, 5), Span(6, 9), Span(9, 10), Span(0, 0)];
      && AlignToken(Span(0, 5), m) == [1]
      && AlignToken(Span(6, 9), m) == [2]
      && AlignToken(Span(9, 10), m) == [3]
  {
    var m := [Span(0, 0), Span(0, 5), Span(6, 9), Span(9, 10), Span(0, 0)];
    var inner := Inner(m);
    assert inner == [Span(0, 5), Span(6, 9), Span(9, 10)];
    var p0, p1, p2 := Span(0, 5), Span(6, 9), Span(9, 10);
    assert AlignPrefix(p0, inner, 3) == [1] by {
      assert AlignPrefix(p0, inner, 1) == [1];
      assert AlignPrefix(p0, inner, 2) == [1];
    }
    assert AlignPrefix(p1, inner, 3) == [2] by {
      assert AlignPrefix(p1, inner, 1) == [];
      assert AlignPrefix(p1, inner, 2) == [2];
    }
    assert AlignPrefix(p2, inner, 3) == [3] by {
      assert AlignPrefix(p2, inner, 1) == [];
      assert AlignPrefix(p2, inner, 2) == [];
    }
  }

  /** Containment, not overlap: against the span [2,5), the sub-word spans
      [2,3) and [3,5) match and [4,6), which runs past the end, does not. */
  lemma PartialOverlapExcluded()
    ensures AlignToken(Span(2, 5), [Span(0, 0), Span(2, 3), Span(3, 5), Span(4, 6), Span(0, 0)]) == [1, 2]
  {
  }
}

=== FILE: annotation.dfy ===
/** The annotation adapter: turns the output of the spaCy or stanza annotator
    into the uniform sequence of `ClauseFeature` records. The annotators
    themselves are not modelled; their output is the input here. */
module Annotation {
  import opened Wrappers
  import opened Text
  import opened Features

  /** The attributes of one spaCy token the adapter reads: its text, its
      character offset `idx`, `head.i` (the head's 0-based position in the
      document; a root is its own head), the coarse tag, the entity type and
      the dependency label. */
  datatype SpacyToken = SpacyToken(
    text: string,
    idx: int,
    headIndex: int,
    pos: string,
    entType: string,
    dep: string)

  /** The dictionary of a stanza token's first word. `misc` encodes the
      character offsets as `start_char=S|end_char=E`. */
  datatype StanzaWord = StanzaWord(
    text: string,
    id: int,
    head: int,
    misc: string,
    xpos: string,
    ner: string,
    deprel: string)

  /** What the annotator returned for one text: a flat token sequence (spaCy)
      or sentences of words (stanza). */
  datatype AnnotatedDoc =
    | SpacyDoc(tokens: seq<SpacyToken>)
    | StanzaDoc(sentences: seq<seq<StanzaWord>>)

  // ---------------------------------------------------------------------------
  // spaCy
  // ---------------------------------------------------------------------------

  /** The record for the spaCy token at 0-based position `i`. */
  function SpacyRecord(t: SpacyToken, i: nat): ClauseFeature
  {
    var id := i + 1;
    ClauseFeature(id, t.text, Span(t.idx, t.idx + |t.text|), t.pos, t.entType,
                  DepTriple(id, t.dep, t.headIndex), [])
  }

  /** One record per spaCy token, in document order: ids count 1, 2, ...,
      each span ends where its text ends, and the triple starts with the id. */
  function SpacyRecords(doc: seq<SpacyToken>): (r: seq<ClauseFeature>)
    ensures |r| == |doc|
    ensures forall i :: 0 <= i < |r| ==> r[i].tkIdx == i + 1
    ensures forall i :: 0 <= i < |r| ==>
      r[i].tk == doc[i].text && r[i].offset.start == doc[i].idx &&
      r[i].offset.end == r[i].offset.start + |r[i].tk|
    ensures forall i :: 0 <= i < |r| ==>
      r[i].dep == DepTriple(r[i].tkIdx, doc[i].dep, doc[i].headIndex)
    ensures forall i :: 0 <= i < |r| ==>
      r[i].pos == doc[i].pos && r[i].ner == doc[i].entType && r[i].bertOffset == []
  {
    seq(|doc|, i requires 0 <= i < |doc| => SpacyRecord(doc[i], i))
  }

  /** No two spaCy records share an id, and the ids grow in document order. */
  lemma SpacyIdsDistinct(doc: seq<SpacyToken>)
    ensures var r := SpacyRecords(doc);
      forall a, b :: 0 <= a < |r| && 0 <= b < |r| && a != b ==> r[a].tkIdx != r[b].tkIdx
    ensures var r := SpacyRecords(doc);
      forall a, b :: 0 <= a < b < |r| ==> r[a].tkIdx < r[b].tkIdx
  {
  }

  // ---------------------------------------------------------------------------
  // stanza
  // ---------------------------------------------------------------------------

  /** Reads the offsets out of a stanza `misc` string the way the source does:
      split on `|`, take the first two fields, split each on `=`, read the
      second piece with `int()`. Which keys the fields carry is never looked
      at. Too few fields, a field without `=`, or a value `int()` rejects is a
      fault, here `None`. */
  function ParseOffsets(misc: string): (r: Option<Span>)
    ensures r.Some? ==> '|' in misc
  {
    var fields := Split(misc, '|');
    if |fields| < 2 then None
    else
      var first := Split(fields[0], '=');
      var second := Split(fields[1], '=');
      if |first| < 2 || |second| < 2 then None
      else
        match (ParseInt(first[1]), ParseInt(second[1]))
        case (Some(s), Some(e)) => Some(Span(s, e))
        case _ => None
  }

  /** A string `k1=S|k2=E` optionally followed by further `|`-fields reads
      back as the span `(S, E)`, whatever the keys are called. */
  lemma ParseOffsetsFormatted(k1: string, k2: string, s: int, e: int, rest: string)
    requires '|' !in k1 && '=' !in k1 && '|' !in k2 && '=' !in k2
    requires rest == [] || rest[0] == '|'
    ensures ParseOffsets(k1 + "=" + ShowInt(s) + "|" + k2 + "=" + ShowInt(e) + rest)
            == Some(Span(s, e))
  {
    var f0 := k1 + "=" + ShowInt(s);
    var f1 := k2 + "=" + ShowInt(e);
    var misc := k1 + "=" + ShowInt(s) + "|" + k2 + "=" + ShowInt(e) + rest;
    assert misc == f0 + "|" + f1 + rest;
    TwoFields(f0, f1, rest);
    var fields := Split(misc, '|');
    KeyValue(k1, ShowInt(s));
    KeyValue(k2, ShowInt(e));
    assert Split(fields[0], '=')[1] == ShowInt(s);
    assert Split(fields[1], '=')[1] == ShowInt(e);
    ParseShow(s);
    ParseShow(e);
  }

  /** The first two `|`-fields of `f0|f1` followed by more fields. */
  lemma TwoFields(f0: string, f1: string, rest: string)
    requires '|' !in f0 && '|' !in f1
    requires rest == [] || rest[0] == '|'
    ensures var fields := Split(f0 + "|" + f1 + rest, '|');
      |fields| >= 2 && fields[0] == f0 && fields[1] == f1
  {
    if rest == [] {
      assert f0 + "|" + f1 + rest == f0 + ['|'] + f1;
      SplitAfterPiece(f0, '|', f1);
      SplitNoSeparator(f1, '|');
    } else {
      assert f0 + "|" + f1 + rest == f0 + ['|'] + (f1 + ['|'] + rest[1..]);
      SplitAfterPiece(f0, '|', f1 + ['|'] + rest[1..]);
      SplitAfterPiece(f1, '|', rest[1..]);
    }
  }

  /** `key=value` splits on `=` into the key and the value. */
  lemma KeyValue(k: string, v: string)
    requires '=' !in k && '=' !in v
    ensures Split(k + "=" + v, '=') == [k, v]
  {
    assert k + "=" + v == k + ['='] + v;
    SplitAfterPiece(k, '=', v);
    SplitNoSeparator(v, '=');
  }

  /** Each way the source can raise is a fault: fewer than two `|`-fields,
      either of the first two fields without `=`, or a value after `=` that
      `int()` rejects. */
  lemma ParseOffsetsRejects(misc: string)
    ensures '|' !in misc ==> ParseOffsets(misc).None?
    ensures '=' !in Split(misc, '|')[0] ==> ParseOffsets(misc).None?
    ensures var fields := Split(misc, '|');
      |fields| >= 2 && '=' !in fields[1] ==> ParseOffsets(misc).None?
    ensures var fields := Split(misc, '|');
      |fields| >= 2 && |Split(fields[0], '=')| >= 2 && ParseInt(Split(fields[0], '=')[1]).None? ==>
        ParseOffsets(misc).None?
    ensures var fields := Split(misc, '|');
      |fields| >= 2 && |Split(fields[1], '=')| >= 2 && ParseInt(Split(fields[1], '=')[1]).None? ==>
        ParseOffsets(misc).None?
  {
  }

  /** `rec` is what the stanza adapter makes of `w` once its offsets have
      been read as `span`. */
  ghost predicate FromStanza(rec: ClauseFeature, w: StanzaWord, span: Span)
  {
    && rec.tkIdx == w.id
    && rec.tk == w.text
    && rec.offset == span
    && rec.pos == w.xpos
    && rec.ner == w.ner
    && rec.dep == DepTriple(rec.tkIdx, w.deprel, w.head)
    && rec.bertOffset == []
  }

  /** The words of all sentences, sentence after sentence. */
  function Flatten(sentences: seq<seq<StanzaWord>>): (r: seq<StanzaWord>)
    ensures forall x :: x in r <==> exists s :: 0 <= s < |sentences| && x in sentences[s]
    decreases |sentences|
  {
    if |sentences| == 0 then []
    else
      var r := sentences[0] + Flatten(sentences[1..]);
      assert forall s :: 1 <= s < |sentences| ==> sentences[s] == sentences[1..][s - 1];
      r
  }

  /** Flattening a single sentence gives its words. */
  lemma FlattenSingle(s: seq<StanzaWord>)
    ensures Flatten([s]) == s
  {
  }

  /** Flattening distributes over concatenation of sentence lists, so the
      words come sentence by sentence, each sentence in its own order. */
  lemma {:induction false} FlattenAppend(a: seq<seq<StanzaWord>>, b: seq<seq<StanzaWord>>)
    ensures Flatten(a + b) == Flatten(a) + Flatten(b)
    decreases |a|
  {
    if |a| == 0 {
      assert a + b == b;
    } else {
      assert (a + b)[0] == a[0];
      assert (a + b)[1..] == a[1..] + b;
      FlattenAppend(a[1..], b);
    }
  }

  /** The offsets of every word, read one by one. */
  function ReadOffsets(words: seq<StanzaWord>): (spans: seq<Option<Span>>)
    ensures |spans| == |words|
    ensures forall i :: 0 <= i < |words| ==> spans[i] == ParseOffsets(words[i].misc)
  {
    seq(|words|, i requires 0 <= i < |words| => ParseOffsets(words[i].misc))
  }

  /** Entry `i` is the first offsets reading that failed. */
  ghost predicate FirstMissing(spans: seq<Option<Span>>, i: int)
  {
    && 0 <= i < |spans|
    && spans[i].None?
    && forall k :: 0 <= k < i ==> spans[k].Some?
  }

  /** One record per stanza word, in order, given each word's offsets as
      read from its `misc` string; the first word whose offsets could not be
      read stops the whole text (the source raises there). */
  function StanzaRecords(words: seq<StanzaWord>, spans: seq<Option<Span>>): (r: Result<seq<ClauseFeature>, Fault>)
    requires |spans| == |words|
    ensures r.Success? <==> forall i :: 0 <= i < |spans| ==> spans[i].Some?
    ensures r.Success? ==> |r.value| == |words|
    ensures r.Success? ==> forall i :: 0 <= i < |words| ==> FromStanza(r.value[i], words[i], spans[i].value)
    ensures r.Failure? ==> exists i :: FirstMissing(spans, i) && r.error == MalformedOffsets(words[i].misc)
    decreases |words|
  {
    if |words| == 0 then Success([])
    else
      var w := words[0];
      match spans[0]
      case None =>
        assert FirstMissing(spans, 0);
        Failure(MalformedOffsets(w.misc))
      case Some(span) =>
        var rest := StanzaRecords(words[1..], spans[1..]);
        assert forall i :: 1 <= i < |words| ==> words[1..][i - 1] == words[i] && spans[1..][i - 1] == spans[i];
        if rest.Failure? then
          assert forall i :: FirstMissing(spans[1..], i) ==> FirstMissing(spans, i + 1);
          rest
        else
          Success([ClauseFeature(w.id, w.text, span, w.xpos, w.ner,
                                 DepTriple(w.id, w.deprel, w.head), [])] + rest.value)
  }

  // ---------------------------------------------------------------------------
  // Dispatch on the pipeline name
  // ---------------------------------------------------------------------------

  /** The annotator output matches the pipeline named: `nlp` is the one
      `sel_preprocessing` built for that name. */
  predicate DocFits(pipeline: string, doc: AnnotatedDoc)
  {
    && (pipeline == "spacy" ==> doc.SpacyDoc?)
    && (pipeline == "stanza" ==> doc.StanzaDoc?)
  }

  /** The stanza branch: it succeeds exactly when every word's offsets can
      be read, and then each record carries its word's offsets, its own id
      in its triple, and an empty alignment list. */
  lemma StanzaOutcome(words: seq<StanzaWord>)
    ensures var r := StanzaRecords(words, ReadOffsets(words));
      && (r.Success? <==> forall w :: w in words ==> ParseOffsets(w.misc).Some?)
      && (r.Success? ==> |r.value| == |words|)
      && (r.Success? ==> forall i :: 0 <= i < |r.value| ==>
            && Some(r.value[i].offset) == ParseOffsets(words[i].misc)
            && r.value[i].dep.id == r.value[i].tkIdx
            && r.value[i].bertOffset == [])
  {
    var spans := ReadOffsets(words);
    var r := StanzaRecords(words, spans);
    if r.Success? {
      forall w | w in words
        ensures ParseOffsets(w.misc).Some?
      {
        var k :| 0 <= k < |words| && words[k] == w;
        assert spans[k].Some?;
      }
      forall i | 0 <= i < |r.value|
        ensures Some(r.value[i].offset) == ParseOffsets(words[i].misc)
      {
        assert FromStanza(r.value[i], words[i], spans[i].value);
      }
    } else {
      var k :| FirstMissing(spans, k);
      assert words[k] in words;
    }
  }

  /** `tokenization_processing`: spaCy and stanza records as above; any other
      pipeline name falls through both branches and yields no records. */
  function TokenizationProcessing(pipeline: string, doc: AnnotatedDoc): (r: Result<seq<ClauseFeature>, Fault>)
    requires DocFits(pipeline, doc)
    ensures pipeline == "spacy" ==> r.Success? && |r.value| == |doc.tokens|
    ensures pipeline == "spacy" ==> forall i :: 0 <= i < |r.value| ==> r.value[i].tkIdx == i + 1
    ensures pipeline == "stanza" ==>
      (r.Success? <==> forall w :: w in Flatten(doc.sentences) ==> ParseOffsets(w.misc).Some?)
    ensures pipeline == "stanza" && r.Success? ==> |r.value| == |Flatten(doc.sentences)|
    ensures pipeline == "stanza" && r.Success? ==> forall i :: 0 <= i < |r.value| ==>
      Some(r.value[i].offset) == ParseOffsets(Flatten(doc.sentences)[i].misc)
    ensures pipeline != "spacy" && pipeline != "stanza" ==> r == Success([])
    ensures r.Success? ==> forall i :: 0 <= i < |r.value| ==>
      r.value[i].dep.id == r.value[i].tkIdx && r.value[i].bertOffset == []
  {
    if pipeline == "spacy" then Success(SpacyRecords(doc.tokens))
    else if pipeline == "stanza" then
      var words := Flatten(doc.sentences);
      StanzaOutcome(words);
      StanzaRecords(words, ReadOffsets(words))
    else Success([])
  }
}

=== FILE: bundle.dfy ===
/** The feature-bundle combiner `embedding2preprocessed`: builds the records,
    then, by embedding backend, the bundle of vectors, alignment lists and
    dependency triples. Vector entries are an abstract element type `E`
    with a distinguished `zero`; the model forward passes are inputs. */
module Bundle {
  import opened Wrappers
  import opened Text
  import opened Features
  import opened Annotation
  import opened Aligner

  /** Width of a GloVe vector, and of the zero vector used on a miss. */
  const GloveWidth: nat := 300

  /** What the selected backend produces for one text. For BERT two things
      from two collaborators: `offsetMapping` is what the fast tokenizer
      (`embedder`) returns as `offset_mapping`, and `hidden` is the output of
      the forward pass of `model` on the tokenizer's ids. For ELMo it is the
      sentence embedder (which returns one matrix per layer); for GloVe the
      table from lower-case word to vector. */
  datatype Embedder<E> =
    | BertOutputs(offsetMapping: seq<Span>, hidden: seq<seq<E>>)
    | ElmoEmbedder(embedSentence: seq<string> -> seq<seq<seq<E>>>)
    | GloveTable(table: map<string, seq<E>>)

  /** The returned dictionary: `emb`, `preprocessed_offset_match` and
      `preprocessed_dep`. */
  datatype FeatureBundle<E> = FeatureBundle(
    emb: seq<seq<E>>,
    offsetMatch: seq<seq<int>>,
    dep: seq<DepTriple>)

  /** The dependency triples, one per record, in record order. */
  function DepList(records: seq<ClauseFeature>): (r: seq<DepTriple>)
    ensures |r| == |records|
    ensures forall i :: 0 <= i < |r| ==> r[i] == records[i].dep
  {
    seq(|records|, i requires 0 <= i < |records| => records[i].dep)
  }

  // ---------------------------------------------------------------------------
  // BERT
  // ---------------------------------------------------------------------------

  /** The BERT bundle: every record is aligned against the offset mapping,
      and the alignment lists and triples are read off the records in order. */
  function BertBundle<E>(records: seq<ClauseFeature>, m: seq<Span>, hidden: seq<seq<E>>): (b: FeatureBundle<E>)
    ensures b.emb == hidden
    ensures |b.offsetMatch| == |records| && b.dep == DepList(records)
    ensures forall i :: 0 <= i < |records| ==> StrictlyIncreasing(b.offsetMatch[i])
    ensures forall i, j :: 0 <= i < |records| && j in b.offsetMatch[i] ==>
      1 <= j <= |m| - 2 && Contained(m[j], records[i].offset)
    ensures forall i, j :: 0 <= i < |records| && 1 <= j <= |m| - 2 && Contained(m[j], records[i].offset) ==>
      j in b.offsetMatch[i]
  {
    var aligned := AlignRecords(records, m);
    assert forall i :: 0 <= i < |records| ==> aligned[i].dep == records[i].dep;
    FeatureBundle(hidden,
                  seq(|aligned|, i requires 0 <= i < |aligned| => aligned[i].bertOffset),
                  seq(|aligned|, i requires 0 <= i < |aligned| => aligned[i].dep))
  }

  // ---------------------------------------------------------------------------
  // ELMo and GloVe
  // ---------------------------------------------------------------------------

  /** The alignment used when there are no sub-word tokens: each record maps
      to the one-element list holding its own id. */
  function SelfAlignment(records: seq<ClauseFeature>): (r: seq<seq<int>>)
    ensures |r| == |records|
    ensures forall i :: 0 <= i < |r| ==> |r[i]| == 1 && r[i][0] == records[i].tkIdx
  {
    seq(|records|, i requires 0 <= i < |records| => [records[i].tkIdx])
  }

  /** The surface texts, in record order: what ELMo embeds as one sentence. */
  function Texts(records: seq<ClauseFeature>): (r: seq<string>)
    ensures |r| == |records|
    ensures forall i :: 0 <= i < |r| ==> r[i] == records[i].tk
  {
    seq(|records|, i requires 0 <= i < |records| => records[i].tk)
  }

  /** The ELMo bundle: the first layer the embedder returns for the record
      texts. An embedder that returns no layer makes `[0]` raise. */
  function ElmoBundle<E>(records: seq<ClauseFeature>, embedSentence: seq<string> -> seq<seq<seq<E>>>): (r: Result<FeatureBundle<E>, Fault>)
    ensures r.Failure? <==> |embedSentence(Texts(records))| == 0
    ensures r.Failure? ==> r.error == NoElmoLayers
    ensures r.Success? ==> r.value.emb == embedSentence(Texts(records))[0]
    ensures r.Success? ==> r.value.offsetMatch == SelfAlignment(records) && r.value.dep == DepList(records)
  {
    var layers := embedSentence(Texts(records));
    if |layers| == 0 then Failure(NoElmoLayers)
    else Success(FeatureBundle(layers[0], SelfAlignment(records), DepList(records)))
  }

  /** The zero vector substituted for a word missing from the table. */
  function ZeroVector<E>(zero: E): (v: seq<E>)
    ensures |v| == GloveWidth
    ensures forall k :: 0 <= k < |v| ==> v[k] == zero
  {
    seq(GloveWidth, _ => zero)
  }

  /** The GloVe vector of one token: the table entry for its lower-cased text
      when there is one, the zero vector otherwise; a miss never fails. */
  function GloveVector<E>(tk: string, table: map<string, seq<E>>, zero: E): (v: seq<E>)
    ensures Lower(tk) in table ==> v == table[Lower(tk)]
    ensures Lower(tk) !in table ==> |v| == GloveWidth && forall k :: 0 <= k < |v| ==> v[k] == zero
  {
    var key := Lower(tk);
    if key in table then table[key] else ZeroVector(zero)
  }

  /** Tokens that differ only in ASCII letter case get the same vector. */
  lemma GloveIgnoresCase<E>(a: string, b: string, table: map<string, seq<E>>, zero: E)
    requires |a| == |b|
    requires forall k :: 0 <= k < |a| ==> LowerChar(a[k]) == LowerChar(b[k])
    ensures GloveVector(a, table, zero) == GloveVector(b, table, zero)
  {
    assert Lower(a) == Lower(b);
  }

  /** Lower-casing a token before the lookup changes nothing, because the
      lookup lower-cases it anyway; a token whose lower-cased form is a table
      key finds that key's vector. */
  lemma GloveLooksUpLowerCase<E>(tk: string, table: map<string, seq<E>>, zero: E)
    ensures GloveVector(Lower(tk), table, zero) == GloveVector(tk, table, zero)
    ensures Lower(tk) in table ==> GloveVector(Lower(tk), table, zero) == table[Lower(tk)]
  {
    LowerIdempotent(tk);
  }

  /** The GloVe bundle: one vector per record, in record order. */
  function GloveBundle<E>(records: seq<ClauseFeature>, table: map<string, seq<E>>, zero: E): (b: FeatureBundle<E>)
    ensures |b.emb| == |records|
    ensures forall i :: 0 <= i < |records| ==> b.emb[i] == GloveVector(records[i].tk, table, zero)
    ensures b.offsetMatch == SelfAlignment(records) && b.dep == DepList(records)
  {
    var vectors := seq(|records|, i requires 0 <= i < |records| => GloveVector(records[i].tk, table, zero));
    FeatureBundle(vectors, SelfAlignment(records), DepList(records))
  }

  // ---------------------------------------------------------------------------
  // Dispatch on the embedding name
  // ---------------------------------------------------------------------------

  /** The name selects the GloVe branch: it is neither "bert" nor "elmo" and
      contains "glove" anywhere, as the source's `'glove' in args.emb` test. */
  predicate IsGloveName(emb: string)
  {
    emb != "bert" && emb != "elmo" && IsInfix("glove", emb)
  }

  /** The two GloVe names the selector knows take the GloVe branch; so would
      any other name containing "glove". */
  lemma GloveNamesSelectGlove()
    ensures IsGloveName("glove42b") && IsGloveName("glove840b")
    ensures !IsGloveName("bert") && !IsGloveName("elmo") && !IsGloveName("GloVe")
  {
    assert WindowAt("glove42b", 0, 5) == "glove";
    assert WindowAt("glove840b", 0, 5) == "glove";
    assert WindowAt("GloVe", 0, 5)[0] != "glove"[0];
  }

  /** The handle matches the name: `embedder` is the one `sel_pretrained`
      built for it. */
  predicate BackendFits<E>(emb: string, embedder: Embedder<E>)
  {
    && (emb == "bert" ==> embedder.BertOutputs?)
    && (emb == "elmo" ==> embedder.ElmoEmbedder?)
    && (IsGloveName(emb) ==> embedder.GloveTable?)
  }

  /** The bundle for already-built records. A name matching no branch falls
      off the end of the function, which returns `None`. Every bundle has one
      alignment list and one triple per record, in record order. */
  function Assemble<E>(emb: string, records: seq<ClauseFeature>, embedder: Embedder<E>, zero: E): (r: Result<Option<FeatureBundle<E>>, Fault>)
    requires BackendFits(emb, embedder)
    ensures r.Success? && r.value.Some? ==>
      |r.value.value.offsetMatch| == |records| && r.value.value.dep == DepList(records)
    ensures emb == "bert" ==> r == Success(Some(BertBundle(records, embedder.offsetMapping, embedder.hidden)))
    ensures emb == "elmo" ==> r.Failure? == (|embedder.embedSentence(Texts(records))| == 0)
    ensures emb == "elmo" && r.Success? ==>
      r.value.Some? && r.value.value.emb == embedder.embedSentence(Texts(records))[0]
    ensures emb == "elmo" && r.Failure? ==> r.error == NoElmoLayers
    ensures emb == "elmo" || IsGloveName(emb) ==>
      r.Success? ==> r.value.Some? && r.value.value.offsetMatch == SelfAlignment(records)
    ensures IsGloveName(emb) ==> r == Success(Some(GloveBundle(records, embedder.table, zero)))
    ensures emb != "bert" && emb != "elmo" && !IsGloveName(emb) ==> r == Success(None)
  {
    if emb == "bert" then
      Success(Some(BertBundle(records, embedder.offsetMapping, embedder.hidden)))
    else if emb == "elmo" then
      match ElmoBundle(records, embedder.embedSentence)
      case Failure(f) => Failure(f)
      case Success(b) => Success(Some(b))
    else if IsInfix("glove", emb) then
      Success(Some(GloveBundle(records, embedder.table, zero)))
    else
      Success(None)
  }

  /** `embedding2preprocessed` end to end: annotate, then assemble. A fault
      while building the records escapes whatever the embedding name. */
  function Embedding2Preprocessed<E>(emb: string, pipeline: string, doc: AnnotatedDoc,
                                     embedder: Embedder<E>, zero: E): (r: Result<Option<FeatureBundle<E>>, Fault>)
    requires DocFits(pipeline, doc)
    requires BackendFits(emb, embedder)
    ensures TokenizationProcessing(pipeline, doc).Failure? ==> r == Failure(TokenizationProcessing(pipeline, doc).error)
    ensures TokenizationProcessing(pipeline, doc).Success? ==>
      r == Assemble(emb, TokenizationProcessing(pipeline, doc).value, embedder, zero)
    ensures pipeline != "spacy" && pipeline != "stanza" && r.Success? && r.value.Some? ==>
      r.value.value.offsetMatch == [] && r.value.value.dep == []
  {
    match TokenizationProcessing(pipeline, doc)
    case Failure(f) => Failure(f)
    case Success(records) => Assemble(emb, records, embedder, zero)
  }

  /** With the spaCy annotator and a backend without sub-word tokens, token
      `i` (0-based) is aligned to `[i + 1]`, and the triple list starts each
      triple with the same id. */
  lemma SpacySelfAlignment<E>(emb: string, doc: seq<SpacyToken>, embedder: Embedder<E>, zero: E)
    requires emb == "elmo" || IsGloveName(emb)
    requires BackendFits(emb, embedder)
    ensures var r := Embedding2Preprocessed(emb, "spacy", SpacyDoc(doc), embedder, zero);
      r.Success? ==>
        && r.value.Some?
        && |r.value.value.offsetMatch| == |doc|
        && (forall i :: 0 <= i < |doc| ==> r.value.value.offsetMatch[i] == [i + 1])
        && (forall i :: 0 <= i < |doc| ==> r.value.value.dep[i].id == i + 1)
  {
  }

  /** With the spaCy annotator and BERT, the list of token `i` holds exactly
      the inner sub-word pairs lying inside `[idx, idx + len(text))` of that
      token, and its triple starts with `i + 1`. */
  lemma SpacyBertAlignment<E>(doc: seq<SpacyToken>, m: seq<Span>, hidden: seq<seq<E>>, zero: E)
    ensures var r := Embedding2Preprocessed("bert", "spacy", SpacyDoc(doc), BertOutputs(m, hidden), zero);
      && r.Success? && r.value.Some?
      && |r.value.value.offsetMatch| == |doc|
      && (forall i, j :: 0 <= i < |doc| && j in r.value.value.offsetMatch[i] ==>
            1 <= j <= |m| - 2 && Contained(m[j], Span(doc[i].idx, doc[i].idx + |doc[i].text|)))
      && (forall i, j ::
            (0 <= i < |doc| && 1 <= j <= |m| - 2 && Contained(m[j], Span(doc[i].idx, doc[i].idx + |doc[i].text|)))
            ==> j in r.value.value.offsetMatch[i])
      && (forall i :: 0 <= i < |doc| ==> r.value.value.dep[i].id == i + 1)
  {
  }
}

=== FILE: features.dfy ===
/** The record the adapters build for each linguistic token, and the faults
    the pipeline can raise while building or assembling them. */
module Features {

  /** A character interval `(start, end)` over the original text; the
      annotators report half-open spans. The same shape carries one entry of
      the sub-word tokenizer's offset mapping. */
  datatype Span = Span(start: int, end: int)

  /** The dependency triple `(id, deprel, head)` stored with each token. */
  datatype DepTriple = DepTriple(id: int, rel: string, head: int)

  /** One `Clause_feature`. The adapters create it with the placeholder `''`
      for the sub-word alignment; that placeholder is the empty list here, and
      the aligner replaces it with the list of matching sub-word indices. */
  datatype ClauseFeature = ClauseFeature(
    tkIdx: int,
    tk: string,
    offset: Span,
    pos: string,
    ner: string,
    dep: DepTriple,
    bertOffset: seq<int>)

  /** The exceptions that escape the pipeline: an offsets string the stanza
      adapter cannot read (an `IndexError` or `ValueError` in the source), and
      an ELMo embedder that returns no layer to take index 0 of. */
  datatype Fault = MalformedOffsets(misc: string) | NoElmoLayers
}

=== FILE: text.dfy ===
/** The string handling the adapters rely on, written out over `seq<char>`:
    splitting on a separator character, integer parsing as `int()` does it for
    ASCII input, ASCII lower-casing and substring search. */
module Text {
  import opened Wrappers

  // ---------------------------------------------------------------------------
  // Splitting on one separator character
  // ---------------------------------------------------------------------------

  /** Glues `parts` back together with `d` between neighbours. */
  function Join(parts: seq<string>, d: char): (r: string)
    requires |parts| >= 1
    ensures |parts| == 1 ==> r == parts[0]
    decreases |parts|
  {
    if |parts| == 1 then parts[0] else parts[0] + [d] + Join(parts[1..], d)
  }

  /** `s.split(d)` with an explicit separator: the maximal runs between
      occurrences of `d`, empty runs included, so "" splits to [""]. */
  function Split(s: string, d: char): (r: seq<string>)
    ensures |r| >= 1
    ensures forall i :: 0 <= i < |r| ==> d !in r[i]
    ensures |r| > 1 ==> d in s
    decreases |s|
  {
    if |s| == 0 then [""]
    else
      var rest := Split(s[1..], d);
      if s[0] == d then [""] + rest
      else [[s[0]] + rest[0]] + rest[1..]
  }

  /** Joining the pieces back with the separator gives the original string. */
  lemma {:induction false} JoinSplit(s: string, d: char)
    ensures Join(Split(s, d), d) == s
    decreases |s|
  {
    if |s| > 0 {
      var rest := Split(s[1..], d);
      JoinSplit(s[1..], d);
      if s[0] == d {
        assert ([""] + rest)[1..] == rest;
      } else {
        var r := [[s[0]] + rest[0]] + rest[1..];
        assert r[1..] == rest[1..];
        if |rest| > 1 {
          assert Join(rest, d) == rest[0] + [d] + Join(rest[1..], d);
        }
        assert s == [s[0]] + s[1..];
      }
    }
  }

  /** A piece with no separator splits to itself. */
  lemma {:induction false} SplitNoSeparator(a: string, d: char)
    requires d !in a
    ensures Split(a, d) == [a]
    decreases |a|
  {
    if |a| > 0 {
      SplitNoSeparator(a[1..], d);
      assert [a[0]] + a[1..] == a;
    }
  }

  /** A separator-free prefix followed by the separator becomes the first piece. */
  lemma {:induction false} SplitAfterPiece(a: string, d: char, t: string)
    requires d !in a
    ensures Split(a + [d] + t, d) == [a] + Split(t, d)
    decreases |a|
  {
    if |a| == 0 {
      assert a + [d] + t == [d] + t;
      assert ([d] + t)[1..] == t;
    } else {
      var s := a + [d] + t;
      assert s[1..] == a[1..] + [d] + t;
      SplitAfterPiece(a[1..], d, t);
      assert [s[0]] + a[1..] == a;
    }
  }

  /** Splitting undoes joining whenever no piece contains the separator. */
  lemma {:induction false} SplitJoin(parts: seq<string>, d: char)
    requires |parts| >= 1
    requires forall i :: 0 <= i < |parts| ==> d !in parts[i]
    ensures Split(Join(parts, d), d) == parts
    decreases |parts|
  {
    if |parts| == 1 {
      SplitNoSeparator(parts[0], d);
    } else {
      SplitJoin(parts[1..], d);
      SplitAfterPiece(parts[0], d, Join(parts[1..], d));
      assert [parts[0]] + parts[1..] == parts;
    }
  }

  // ---------------------------------------------------------------------------
  // Integers in decimal
  // ---------------------------------------------------------------------------

  predicate IsDigit(c: char) { '0' <= c <= '9' }

  /** Every character is a decimal digit (checked from the last one back). */
  predicate AllDigits(s: string)
    decreases |s|
  {
    |s| == 0 || (AllDigits(s[..|s| - 1]) && IsDigit(s[|s| - 1]))
  }

  /** `AllDigits` is the pointwise property. */
  lemma {:induction false} AllDigitsAt(s: string)
    ensures AllDigits(s) <==> forall i :: 0 <= i < |s| ==> IsDigit(s[i])
    decreases |s|
  {
    if |s| > 0 {
      AllDigitsAt(s[..|s| - 1]);
    }
  }

  /** The ASCII whitespace `int()` skips around a numeral: tab through
      carriage return, and space. The separators 0x1C-0x1F satisfy
      `str.isspace` but are not skipped, so `int()` rejects them. */
  predicate IsSpace(c: char) { c == ' ' || ('\U{9}' <= c <= '\U{D}') }

  function DigitValue(c: char): (v: nat)
    requires IsDigit(c)
    ensures v < 10
  {
    c as int - '0' as int
  }

  function DigitChar(v: nat): (c: char)
    requires v < 10
    ensures IsDigit(c) && DigitValue(c) == v
  {
    ('0' as int + v) as char
  }

  /** The value of a string of decimal digits, most significant first. */
  function DigitsValue(s: string): nat
    requires AllDigits(s)
    decreases |s|
  {
    if |s| == 0 then 0 else DigitsValue(s[..|s| - 1]) * 10 + DigitValue(s[|s| - 1])
  }

  /** Drops leading whitespace. */
  function TrimStart(s: string): (r: string)
    ensures |r| <= |s| && r == s[|s| - |r|..]
    ensures |r| > 0 ==> !IsSpace(r[0])
    decreases |s|
  {
    if |s| > 0 && IsSpace(s[0]) then TrimStart(s[1..]) else s
  }

  /** Drops trailing whitespace. */
  function TrimEnd(s: string): (r: string)
    ensures |r| <= |s| && r == s[..|r|]
    ensures |r| > 0 ==> !IsSpace(r[|r| - 1])
    decreases |s|
  {
    if |s| > 0 && IsSpace(s[|s| - 1]) then TrimEnd(s[..|s| - 1]) else s
  }

  /** Drops whitespace at both ends, as `int()` does before reading digits. */
  function Strip(s: string): (r: string)
    ensures |r| <= |s|
    ensures |r| > 0 ==> !IsSpace(r[0]) && !IsSpace(r[|r| - 1])
  {
    TrimEnd(TrimStart(s))
  }

  /** Python's `int(s)` on ASCII text: surrounding whitespace, an optional
      sign, then at least one decimal digit; anything else is a `ValueError`,
      here `None`. */
  function ParseInt(s: string): (r: Option<int>)
    ensures r.Some? ==> |Strip(s)| > 0 && IsDigit(Strip(s)[|Strip(s)| - 1])
    ensures r.Some? && IsDigit(Strip(s)[0]) ==> r.value >= 0
    ensures r.Some? && Strip(s)[0] == '-' ==> r.value <= 0
  {
    var t := Strip(s);
    if |t| > 0 && (t[0] == '+' || t[0] == '-') then
      var ds := t[1..];
      if |ds| > 0 && AllDigits(ds) then
        var v: int := DigitsValue(ds);
        Some(if t[0] == '-' then -v else v)
      else None
    else if |t| > 0 && AllDigits(t) then
      Some(DigitsValue(t))
    else None
  }

  /** `int()` skips ASCII whitespace around a numeral. */
  lemma ParseIntSkipsSpace()
    ensures ParseInt(" 5\n") == Some(5)
  {
    assert TrimStart(" 5\n") == "5\n";
    assert TrimEnd("5\n") == "5";
    assert AllDigits("5") by { AllDigitsAt("5"); }
  }

  /** `int()` does not skip the separator 0x1C, although `str.isspace`
      accepts it. */
  lemma ParseIntKeepsSeparator()
    ensures ParseInt("\U{1C}5") == None
  {
    assert Strip("\U{1C}5") == "\U{1C}5";
    assert !AllDigits("\U{1C}5") by { AllDigitsAt("\U{1C}5"); }
  }

  /** Text with no whitespace at either end is left alone by `Strip`. */
  lemma StripUnchanged(s: string)
    requires |s| > 0 && !IsSpace(s[0]) && !IsSpace(s[|s| - 1])
    ensures Strip(s) == s
  {
  }

  /** The canonical decimal spelling of a natural number. */
  function ShowNat(n: nat): (r: string)
    ensures |r| > 0 && AllDigits(r)
    ensures DigitsValue(r) == n
    decreases n
  {
    if n < 10 then [DigitChar(n)]
    else
      var r := ShowNat(n / 10) + [DigitChar(n % 10)];
      assert r[..|r| - 1] == ShowNat(n / 10);
      r
  }

  /** The canonical decimal spelling of an integer, `str(n)`. */
  function ShowInt(n: int): (r: string)
    ensures |r| > 0 && '|' !in r && '=' !in r
  {
    var ds := ShowNat(if n < 0 then -n else n);
    AllDigitsAt(ds);
    var r := if n < 0 then "-" + ds else ds;
    assert forall i :: 0 <= i < |r| ==> r[i] == '-' || IsDigit(r[i]);
    r
  }

  /** Parsing undoes showing. */
  lemma ParseShow(n: int)
    ensures ParseInt(ShowInt(n)) == Some(n)
  {
    var s := ShowInt(n);
    if n < 0 {
      var ds := ShowNat(-n);
      AllDigitsAt(ds);
      assert s == "-" + ds && s[1..] == ds;
      assert IsDigit(s[|s| - 1]);
      StripUnchanged(s);
    } else {
      AllDigitsAt(s);
      assert IsDigit(s[0]) && IsDigit(s[|s| - 1]);
      StripUnchanged(s);
    }
  }

  // ---------------------------------------------------------------------------
  // Case and search
  // ---------------------------------------------------------------------------

  predicate IsUpper(c: char) { 'A' <= c <= 'Z' }

  function LowerChar(c: char): (r: char)
  {
    if IsUpper(c) then (c as int + 32) as char else c
  }

  /** `s.lower()` for ASCII letters; every other character is kept. */
  function Lower(s: string): (r: string)
    ensures |r| == |s|
    ensures forall i :: 0 <= i < |r| ==> !IsUpper(r[i])
    ensures forall i :: 0 <= i < |r| && !IsUpper(s[i]) ==> r[i] == s[i]
    ensures forall i :: 0 <= i < |r| && IsUpper(s[i]) ==> r[i] as int == s[i] as int + 32
  {
    seq(|s|, i requires 0 <= i < |s| => LowerChar(s[i]))
  }

  /** Lower-casing twice is lower-casing once. */
  lemma LowerIdempotent(s: string)
    ensures Lower(Lower(s)) == Lower(s)
  {
  }

  /** `needle in hay` for strings: some window of `hay` equals `needle`. */
  function IsInfix(needle: string, hay: string): (b: bool)
    ensures b <==> exists i :: 0 <= i <= |hay| - |needle| && WindowAt(hay, i, |needle|) == needle
    decreases |hay|
  {
    if |hay| < |needle| then false
    else if hay[..|needle|] == needle then
      assert WindowAt(hay, 0, |needle|) == needle;
      true
    else
      var rest := IsInfix(needle, hay[1..]);
      assert WindowAt(hay, 0, |needle|) != needle;
      assert forall i :: 1 <= i <= |hay| - |needle| ==>
        WindowAt(hay, i, |needle|) == WindowAt(hay[1..], i - 1, |needle|);
      assert forall j :: 0 <= j <= |hay[1..]| - |needle| ==>
        WindowAt(hay[1..], j, |needle|) == WindowAt(hay, j + 1, |needle|);
      rest
  }

  /** The `len` characters of `hay` starting at `i`. */
  function WindowAt(hay: string, i: int, len: nat): (w: string)
    requires 0 <= i <= |hay| - len
    ensures |w| == len
  {
    hay[i..i + len]
  }
}

=== FILE: wrappers.dfy ===
/** Failure-carrying result types shared by the other modules. */
module Wrappers {

  /** An optional value: `None` where the source has no answer. */
  datatype Option<+T> = None | Some(value: T)

  /** The outcome of a step that may raise: `Failure` stands for the
      exception the source would let escape. */
  datatype Result<+R, +E> = Success(value: R) | Failure(error: E)
}
